=== FILE: README.md ===
# Guitar scales: a Dafny model of the music-theory and fretboard core

This project models the integer logic of a small fretboard viewer written in
Rust with egui. Given an instrument's tuning and a scale, the viewer draws a
fretboard with fret markers and one note bubble per string and fret. Three
parts are modelled:

- **Scale tables** (`src/scales.rs`, plus the older copy in `src/guitar.rs`).
  Each scale (diatonic, blues or pentatonic; major or minor) is a table of
  semitone steps. Its notes are the running sums of those steps, starting at
  the root. A signed note is in the scale when its pitch class (the note
  reduced into 0..11) is one of those sums. Letter names and scale-degree
  names come from two fixed 12-entry tables.
- **Instruments and tunings** (`src/instruments.rs`). A tuning gives the
  absolute pitch of each open string. Most guitar tunings are standard tuning
  plus a per-string offset vector; the lefty tuning is written out as
  standard reversed. An instrument is a name, its tunings and
  the index of the selected tuning. There are five presets: guitar, violin,
  cello, ukulele and banjo.
- **Fretboard decisions** (`src/fretboard.rs`), covering only the integer
  rules inside the drawing code:
  - which frets get a marker, and of what kind;
  - which fret is the heavy nut;
  - the order in which strings are laid out for each orientation;
  - the absolute pitch (`string + fret`) that classifies each bubble;
  - the empty-list fallback of `instrument()`;
  - the settings-panel and legend toggles, modelled as methods of a
    `FretboardApp` class.

Modules: `StepTables` (the shared running-sum definition), `Scales`, `Guitar`,
`Instruments`, `Fretboard`.

The code is imperative in three places: the `notes()` loop, the normalising
`while` loop of `is_note_in_scale`, and the in-place update loop of
`Tuning::from`. These are Dafny methods with loop invariants. Each method is
proved against a specification function (`PrefixSums`, `InScale`,
`Shifted`). The fretboard's fret loop and string loop are methods that
return what they would draw.

## Model

| member | source | states |
|---|---|---|
| `StepTables.PrefixSums` | src/scales.rs:71-79 | the running sums have one entry more than the steps, start at 0 and end at the sum of all steps |
| `StepTables.PrefixSumsStep` | src/scales.rs:74-77 | each running sum is the previous one plus the step between them |
| `StepTables.PrefixSumsIncreasing` | src/scales.rs:71-79 | positive steps give strictly increasing notes |
| `StepTables.DistinctCount` | src/scales.rs:85 | a strictly increasing note list holds as many distinct values as entries |
| `Scales.ScaleIntervals.Intervals` | src/scales.rs:55-70 | every step table has only positive steps and has 7 entries (diatonic), 6 (blues) or 5 (pentatonic) |
| `Scales.IntervalsSpanOctave` | src/scales.rs:55-70 | the steps of each of the six tables add up to exactly 12 |
| `Scales.ScaleIntervals.Notes` | src/scales.rs:71-79 | the loop returns the running sums of the steps: starts at 0, one entry per step plus one, strictly increasing, last entry 12 |
| `Scales.NotesSteps` | src/scales.rs:71-79 | the notes start at 0 and each is the previous one plus the corresponding step |
| `Scales.NotesShape` | src/scales.rs:71-79 | the notes start at 0, rise strictly by the steps and end on 12 |
| `Scales.NoteTables` | src/scales.rs:57-68 | the six note lists written out, e.g. minor pentatonic [0,3,5,7,10,12], major diatonic [0,2,4,5,7,9,11,12], minor blues [0,3,5,6,7,10,12] |
| `Scales.ScaleIntervals.IsNoteInScale` | src/scales.rs:80-86 | the raise-then-reduce loop yields membership of the Euclidean residue `n mod total_tones` in the notes, for every 16-bit `n`; the `+= total_tones` never overflows because it only runs while `n < 0` |
| `Scales.InScalePeriodic` | src/scales.rs:80-86 | with 12 tones, membership of n and n+12 agree |
| `Scales.RootAndWrap` | src/scales.rs:80-86 | the root (0) is in every scale, and -1 behaves as 11 |
| `Scales.AcceptedAreNotesBelowOctave` | src/scales.rs:73-85 | the residues in 0..11 that a scale accepts are exactly its notes before the closing 12 |
| `Scales.AcceptedCount` | src/scales.rs:73-85 | a scale accepts exactly as many residues in 0..11 as it has steps (the trailing 12 never matches) |
| `Scales.ScaleIntervals.GetNoteLetter` | src/scales.rs:87-89 | when the letter table covers `total_tones` entries, the lookup stays in bounds and returns an entry of the letter table |
| `Scales.ScaleIntervals.GetNoteNumber` | src/scales.rs:90-92 | when the degree table covers `total_tones` entries, the lookup stays in bounds and returns an entry of the degree table |
| `Scales.LabelsPeriodic` | src/scales.rs:87-92 | letter and degree names repeat every `total_tones` |
| `Scales.LabelExamples` | src/scales.rs:23-50 | degree 0 is "R", degree 3 is "b3", and letters 1 and 25 are both "C#" |
| `Scales.ScaleIntervals.GetTotalTones` | src/scales.rs:93-95 | the tone count every lookup is reduced by; when both name tables cover it, it is positive and within both tables |
| `Scales.MusicIntervals` | src/scales.rs:16-53 | every constructed scale has 12 tones and two 12-entry name tables, so `get_total_tones()` is 12 and both lookups are in bounds |
| `Guitar.ScaleIntervals.Intervals` | src/guitar.rs:23-38 | the older step tables have only positive steps and 7, 6 or 5 entries |
| `Guitar.ScaleIntervals.Notes` | src/guitar.rs:39-47 | the older loop returns the running sums: first 0, one entry more than the steps, each the previous plus its step |
| `Guitar.MusicIntervals` | src/guitar.rs:13-21 | the older constructor keeps name, mode and size |
| `Guitar.AgreesWithScales` | src/guitar.rs:23-47 | both copies give the same steps and the same notes for every name, mode and size |
| `Guitar.NotesShape` | src/guitar.rs:39-47 | the older notes start at 0, rise strictly, end on 12, and the steps add up to 12 |
| `Instruments.TuningFrom` | src/instruments.rs:11-22 | the in-place loop with its early `break` yields `Shifted(strings, offset)`. The name is copied and the string count kept. String i gains offset i wherever both exist. Strings beyond the offsets are unchanged, and so is everything when there are no offsets |
| `Instruments.ShiftedByNothing` | src/instruments.rs:12-15 | with no offsets the loop stops at once and every string keeps its pitch |
| `Instruments.ShiftedSix` | src/instruments.rs:54-64 | a six-string tuning with six offsets is raised string by string |
| `Instruments.InstrumentFrom` | src/instruments.rs:37-43 | selects index 0 and keeps the tunings in order. It has a selectable tuning exactly when the list is non-empty, and then its tuning and strings are the first tuning's |
| `Instruments.DefaultInstrument` | src/instruments.rs:27-35 | named "None", index 0, no selectable tuning |
| `Instruments.NoInstrument` | src/instruments.rs:50-52 | named "none" with an empty tuning list, so no selectable tuning, so `strings()` would be out of bounds on it |
| `Instruments.Instrument.CurrentTuning` | src/instruments.rs:47-49 | requires the index to be in range; the result is one of the instrument's tunings |
| `Instruments.Instrument.Strings` | src/instruments.rs:44-46 | requires the index to be in range; the result is the strings of one of the instrument's tunings |
| `Instruments.Guitar` | src/instruments.rs:53-66 | standard [4,9,14,19,23,28], the lefty tuning written out as [28,23,19,14,9,4], and standard plus each of the seven offset vectors give the nine-entry table `GuitarTunings`; standard is selected |
| `Instruments.StandardOffsets` | src/instruments.rs:58-59 | the Standard D and Drop D offsets turn standard into [14,19,24,29,33,38] and [14,21,26,31,35,40] |
| `Instruments.OpenOffsets` | src/instruments.rs:60-64 | the five open-tuning offsets turn standard into the Open D, E, F, G and C pitches of `GuitarTunings` |
| `Instruments.GuitarTuningFacts` | src/instruments.rs:54-64 | nine six-string tunings. Lefty is standard reversed. Standard D is standard+10 on each string, the pitch class two below. Drop D lowers string 0's pitch class by a whole tone and raises every other string by exactly 12. Open E is [4,11,16,20,23,28] |
| `Instruments.OnlyStandard` | src/instruments.rs:67-86 | an instrument whose tuning names are exactly ["Standard"], at index 0, holds that one tuning and has it selected |
| `Instruments.Violin` | src/instruments.rs:67-71 | one tuning, "Standard", [7,14,21,28], strings a fifth (7) apart |
| `Instruments.Cello` | src/instruments.rs:72-76 | one tuning, "Standard", [0,7,14,21], strings a fifth apart |
| `Instruments.Ukulele` | src/instruments.rs:77-81 | one tuning, "Standard", [7,12,16,21], rising |
| `Instruments.Banjo` | src/instruments.rs:82-86 | one tuning, "Standard", [7,14,19,23,26], rising |
| `Fretboard.Decimal` | src/fretboard.rs:455 | the text of a fret number is a non-empty string of decimal digits |
| `Fretboard.DecimalRoundTrip` | src/fretboard.rs:455 | the fret-number text reads back as the fret number |
| `Fretboard.MarkerGlyphs` | src/fretboard.rs:427-464 | nothing is drawn unless the fret is one of 3,5,7,9,12,15,17,19 and the style is not None. With Dots, fret 12 (the only marked octave) gets two dots at +4 and -4 and other marked frets one centred dot. With Numbers, the text denotes the fret and only fret 12 uses the octave colour |
| `Fretboard.MarkerRange` | src/fretboard.rs:435-438 | frets 0 and 24 never get a marker; every marked fret lies in 3..19, and among them only 12 is divisible by 12 |
| `Fretboard.FretWeight` | src/fretboard.rs:421-424 | only fret 0, the nut, is drawn with the heavy (3) stroke; every other fret gets 1 |
| `Fretboard.DrawFrets` | src/fretboard.rs:305-341 | the loop visits frets 0..=frets. Each fret gets the same marker at both neck edges. Only the nut is heavy |
| `Fretboard.StringIndex` | src/fretboard.rs:344-347 | the string shown in a row is always a valid string index |
| `Fretboard.StringOrderBijective` | src/fretboard.rs:344-347 | both orders are one-to-one on the rows and are their own inverse, so every string is shown exactly once |
| `Fretboard.DisplayOrder` | src/fretboard.rs:343-347 | the display order lists as many strings as the tuning has |
| `Fretboard.DisplayOrders` | src/fretboard.rs:343-347 | vertical shows the strings as tuned; horizontal shows them reversed |
| `Fretboard.DrawStrings` | src/fretboard.rs:343-374 | row i, fret f is classified by `strings[order(i)] + f`. Exactly `|strings| * (frets+1)` bubbles are drawn, with one line per string (String style) or two (Cells style) |
| `Fretboard.NextPanel` | src/fretboard.rs:199-204 | a click closes the settings panel if it is open and opens it otherwise |
| `Fretboard.PanelToggleTwice` | src/fretboard.rs:199-204 | two clicks from the closed state close it again, and two clicks from the instrument panel also end closed |
| `Fretboard.PresetInstruments` | src/fretboard.rs:70-76 | the vector holds guitar, violin, cello, ukulele and banjo in that order. Each has its first tuning selected and its open strings stated. The guitar carries all nine tunings of `GuitarTunings`; violin, cello, ukulele and banjo each carry exactly one tuning, named "Standard" |
| `Fretboard.PresetOrder` | src/fretboard.rs:70-76 | five instruments with the presets' contents, listed guitar, violin, cello, ukulele, banjo, form the preset list, and the last four each hold a single "Standard" tuning |
| `Fretboard.PresetsSelectable` | src/fretboard.rs:70-76 | every preset has a selectable tuning, and the guitar starts on standard [4,9,14,19,23,28] |
| `Fretboard.FretboardApp.constructor` | src/fretboard.rs:62-97 | the five presets with their tunings and strings (the guitar's nine, a single "Standard" tuning for each of the others), guitar selected in standard tuning (so `strings()` is [4,9,14,19,23,28]). The fallback is `Instrument::none()`, no panel is open, and the settings are dark mode off, vertical, legend shown, 12 frets, dot markers, string style |
| `Fretboard.FretboardApp.ActiveInstrument` | src/fretboard.rs:138-143 | the empty-list fallback when there are no instruments; otherwise `instruments[current_instrument]`, whose index is in range and whose selected tuning exists |
| `Fretboard.FretboardApp.Strings` | src/fretboard.rs:144-146 | the strings of the selected instrument's selected tuning |
| `Fretboard.FretboardApp.ToggleSettings` | src/fretboard.rs:198-204 | the panel moves by `NextPanel` and no other field changes |
| `Fretboard.FretboardApp.ToggleLegend` | src/fretboard.rs:205-208 | `show_legend` is negated and no other field or setting changes |
| `Fretboard.FretboardApp.SelectInstrument` | src/fretboard.rs:183-185 | selects a listed instrument; the state stays valid |
| `Fretboard.FretboardApp.SelectTuning` | src/fretboard.rs:187-197 | writes the chosen index into the current instrument only; the state stays valid |
| `Fretboard.FretboardApp.DrawPanelFretboard` | src/fretboard.rs:294-381 | frets 0..=frets, each with the same marker at both edges and its weight; the bubble at row i, fret f has pitch `DisplayOrder(strings)[i] + f`; bubble and line counts; the legend is drawn exactly when `show_legend` is set |
| `Fretboard.EmptyFallbackHasNoStrings` | src/fretboard.rs:138-146 | with no instruments, the fallback `Instrument::none()` has no selectable tuning, so `strings()` would index out of bounds |

## Left out

- Painting, fonts, colours and widgets are left out because they are calls into egui. This covers `Painter`, `ComboBox`, `Slider`, `Grid`, `draw_panel_settings`, `draw_legend`, `draw_line`, `stroke`, `setup_custom_fonts`, `font_glyph`, `font` and `Toasts`. Only the "octave uses a different colour" choice is kept, as a flag.
- Floating-point geometry is not modelled: offsets, centres, half sizes, cell edges, dot sizes and stroke widths. The only geometry kept is the ±4 shift of the octave dots and the stroke weights 3 and 1, written as integers.
- `Scale`, `NoteType`, `get_bubble`, `get_bubble_from`, `note_letter`, `prefers_flats` and `scale_name` are used by src/fretboard.rs but defined in a version of src/scales.rs that is not part of this model. Bubble classification therefore stops at the absolute pitch it is given. The key/type/size combo boxes that set `Scale` are left out too.
- `DrawSettings` keeps `dark_mode`, `vertical`, `show_legend`, `frets`, `fret_marks` and `string_style`. It drops `note_marks` and `note_colors`, which only feed the classifier that is not modelled, and the `f32` fields `space_string`, `space_fret` and `dot_size`, which only feed geometry.
- `FretboardApp::update` and `new` are left out: they are frame plumbing (they read dark mode from the egui context and call the draw functions).
- `Tuning::name` is a plain field read; the datatype field `name` stands for it.
- src/main.rs is not part of this model: it is an empty native `main` and a wasm bootstrap.
- `Scales.ScaleIntervals.IsNoteInScale`: requires `0 < total_tones < 32768`. With 0 tones the source loops forever or divides by zero. Above 32767 the `as i16` cast wraps; that wrap-around is not modelled. Every scale in the program has 12 tones.
- `Fretboard.MarkerGlyphs`: `fret.try_into().unwrap_or(0)` is modelled as the fret itself. A fret too large to convert becomes 0 in the source, and both give no marker.
- The top bar reads `self.instruments[self.current_instrument]` directly (src/fretboard.rs:187). Like `strings()` on the empty fallback, that is out of bounds when the instrument list is empty. The model's drawing method requires an instrument with a selectable tuning, as the source does in effect. The program never empties the list.
- Rust `usize` overflow in the running sums and in `strings[i] += offset[i]` is not modelled; all values are below 50.

=== FILE: fretboard.dfy ===
/**
 * The integer decisions of src/fretboard.rs: which frets carry a marker and
 * what it looks like, which fret is drawn as the heavy nut, in which order the
 * strings are laid out, which absolute pitch each note bubble is classified
 * by, and the application state that the top bar's controls change.  Pixel
 * geometry and painting are not modelled; the drawing loops return what they
 * would draw.
 */
module Fretboard {
  import opened Instruments

  datatype FretMarker = Dots | Numbers | None

  datatype StringStyle = String | Cells

  datatype Panel = None | Instrument | ViewSettings

  /** The integer and boolean parts of DrawSettings. */
  datatype DrawSettings = DrawSettings(
    darkMode: bool,
    vertical: bool,
    showLegend: bool,
    frets: nat,
    fretMarks: FretMarker,
    stringStyle: StringStyle)

  const DefaultSettings: DrawSettings :=
    DrawSettings(false, true, true, 12, FretMarker.Dots, StringStyle.String)

  // ---------------------------------------------------------------------------
  // Fret markers

  /** The frets that carry an inlay marker. */
  predicate MarkedFret(fret: nat)
  {
    fret == 3 || fret == 5 || fret == 7 || fret == 9 ||
    fret == 12 || fret == 15 || fret == 17 || fret == 19
  }

  /** What a fret marker draws: a dot shifted sideways, or the fret number as text. */
  datatype Glyph = Dot(dx: int) | Label(text: string, octaveColour: bool)

  function DigitChar(d: nat): (c: char)
    requires d < 10
    ensures '0' <= c <= '9'
  {
    ('0' as int + d) as char
  }

  /** Decimal text of a number, as Rust's to_string writes it. */
  function Decimal(n: nat): (s: string)
    ensures s != []
    ensures forall k :: 0 <= k < |s| ==> '0' <= s[k] <= '9'
  {
    if n < 10 then [DigitChar(n)] else Decimal(n / 10) + [DigitChar(n % 10)]
  }

  /** The number a string of decimal digits denotes. */
  function DecimalValue(s: string): nat
    requires forall k :: 0 <= k < |s| ==> '0' <= s[k] <= '9'
  {
    if s == [] then 0
    else DecimalValue(s[..|s| - 1]) * 10 + (s[|s| - 1] as int - '0' as int)
  }

  /** The text of a number marker reads back as the fret number. */
  lemma {:induction false} DecimalRoundTrip(n: nat)
    ensures DecimalValue(Decimal(n)) == n
  {
    var s := Decimal(n);
    if n >= 10 {
      DecimalRoundTrip(n / 10);
      assert s[..|s| - 1] == Decimal(n / 10);
    }
  }

  /**
   * draw_fret_marker: a marker only on the marked frets and only when the
   * setting asks for one; as dots, a pair 4 units either side on the octave
   * fret (the only marked fret divisible by 12) and one centred dot on the
   * others; as numbers, the fret number, in the distinguishing colour only on
   * the octave fret.
   */
  function MarkerGlyphs(fret: nat, setting: FretMarker): (glyphs: seq<Glyph>)
    ensures glyphs == [] <==> !MarkedFret(fret) || setting == FretMarker.None
    ensures setting == Dots && MarkedFret(fret) ==>
      glyphs == if fret == 12 then [Dot(4), Dot(-4)] else [Dot(0)]
    ensures setting == Numbers && MarkedFret(fret) ==>
      |glyphs| == 1 && glyphs[0].Label? &&
      (forall k :: 0 <= k < |glyphs[0].text| ==> '0' <= glyphs[0].text[k] <= '9') &&
      DecimalValue(glyphs[0].text) == fret &&
      (glyphs[0].octaveColour <==> fret == 12)
  {
    var isOctave := fret % 12 == 0;
    var style := if MarkedFret(fret) then setting else FretMarker.None;
    match style
    case None => []
    case Dots => if isOctave then [Dot(4), Dot(4 - 8)] else [Dot(0)]
    case Numbers =>
      DecimalRoundTrip(fret);
      assert isOctave <==> fret == 12;
      [Label(Decimal(fret), isOctave)]
  }

  /** Only frets 3 to 19 can be marked, so fret 0 and fret 24 never are; among the marked frets only 12 is divisible by 12. */
  lemma MarkerRange(setting: FretMarker)
    ensures MarkerGlyphs(0, setting) == [] && MarkerGlyphs(24, setting) == []
    ensures forall f: nat :: MarkedFret(f) ==> 3 <= f <= 19 && (f % 12 == 0 <==> f == 12)
  {
  }

  /** draw_fret: the nut (fret 0) is drawn three times as heavy as any other fret. */
  function FretWeight(fret: nat): (w: nat)
    ensures w == 3 || w == 1
    ensures w == 3 <==> fret == 0
  {
    if fret == 0 then 3 else 1
  }

  /** What one pass of the fret loop draws for a fret: a marker at each edge of the neck and the fret line. */
  datatype FretDraw = FretDraw(fret: nat, nearMarker: seq<Glyph>, farMarker: seq<Glyph>, weight: nat)

  /**
   * The fret loop of draw_panel_fretboard: frets 0 to the configured count
   * inclusive, each with the same marker at both edges; only the nut is heavy.
   */
  method DrawFrets(frets: nat, setting: FretMarker) returns (drawn: seq<FretDraw>)
    ensures |drawn| == frets + 1
    ensures forall f :: 0 <= f < |drawn| ==>
      drawn[f].fret == f &&
      drawn[f].nearMarker == drawn[f].farMarker == MarkerGlyphs(f, setting) &&
      drawn[f].weight == FretWeight(f)
    ensures forall f :: 0 <= f < |drawn| ==> (drawn[f].weight > 1 <==> f == 0)
  {
    var numFrets := frets + 1;
    drawn := [];
    for fret := 0 to numFrets
      invariant |drawn| == fret
      invariant forall f :: 0 <= f < fret ==>
        drawn[f].fret == f &&
        drawn[f].nearMarker == drawn[f].farMarker == MarkerGlyphs(f, setting) &&
        drawn[f].weight == FretWeight(f)
    {
      var near := MarkerGlyphs(fret, setting);
      var far := MarkerGlyphs(fret, setting);
      drawn := drawn + [FretDraw(fret, near, far, FretWeight(fret))];
    }
  }

  // ---------------------------------------------------------------------------
  // Strings and notes

  /** The string drawn in row `row`: rows follow the strings when vertical and run backwards when horizontal. */
  function StringIndex(vertical: bool, count: nat, row: nat): (k: nat)
    requires row < count
    ensures k < count
  {
    if vertical then row else count - row - 1
  }

  /**
   * Both orders show every string exactly once: each is one-to-one on the
   * rows, and each is its own inverse, so every string has a row.
   */
  lemma StringOrderBijective(vertical: bool, count: nat)
    ensures forall r1, r2 :: 0 <= r1 < count && 0 <= r2 < count && r1 != r2 ==>
      StringIndex(vertical, count, r1) != StringIndex(vertical, count, r2)
    ensures forall k :: 0 <= k < count ==>
      StringIndex(vertical, count, StringIndex(vertical, count, k)) == k
  {
  }

  /** The strings in display order. */
  function DisplayOrder(vertical: bool, strings: seq<nat>): (shown: seq<nat>)
    ensures |shown| == |strings|
  {
    seq(|strings|, row requires 0 <= row < |strings| => strings[StringIndex(vertical, |strings|, row)])
  }

  /** Vertical shows the strings as tuned; horizontal shows them reversed. */
  lemma DisplayOrders(strings: seq<nat>)
    ensures DisplayOrder(true, strings) == strings
    ensures DisplayOrder(false, strings) == Reversed(strings)
    ensures Reversed(DisplayOrder(false, strings)) == DisplayOrder(true, strings)
  {
  }

  /** Boundary lines drawn per string: the string itself, or the two edges of its cell. */
  function LinesPerString(style: StringStyle): nat
  {
    match style
    case String => 1
    case Cells => 2
  }

  /**
   * The string loop of draw_panel_fretboard: for each row, its lines and one
   * note bubble per fret, each classified by the absolute pitch of the row's
   * string plus the fret number.
   */
  method DrawStrings(strings: seq<nat>, frets: nat, vertical: bool, style: StringStyle)
    returns (pitches: seq<seq<nat>>, lines: nat, bubbles: nat)
    ensures |pitches| == |strings|
    ensures forall row :: 0 <= row < |strings| ==>
      |pitches[row]| == frets + 1 &&
      forall f :: 0 <= f <= frets ==> pitches[row][f] == strings[StringIndex(vertical, |strings|, row)] + f
    ensures lines == |strings| * LinesPerString(style)
    ensures bubbles == |strings| * (frets + 1)
  {
    var numFrets := frets + 1;
    pitches, lines, bubbles := [], 0, 0;
    for i := 0 to |strings|
      invariant |pitches| == i
      invariant forall row :: 0 <= row < i ==>
        |pitches[row]| == numFrets &&
        forall f :: 0 <= f < numFrets ==> pitches[row][f] == strings[StringIndex(vertical, |strings|, row)] + f
      invariant lines == i * LinesPerString(style)
      invariant bubbles == i * numFrets
    {
      var openPitch := strings[StringIndex(vertical, |strings|, i)];
      lines := lines + LinesPerString(style);
      var row := [];
      for fret := 0 to numFrets
        invariant |row| == fret
        invariant forall f :: 0 <= f < fret ==> row[f] == openPitch + f
        invariant bubbles == i * numFrets + fret
      {
        row := row + [openPitch + fret];
        bubbles := bubbles + 1;
      }
      pitches := pitches + [row];
    }
  }

  // ---------------------------------------------------------------------------
  // Application state

  /** The settings button: closes the settings panel, or opens it over whatever else is open. */
  function NextPanel(p: Panel): (q: Panel)
    ensures q == Panel.ViewSettings <==> p != Panel.ViewSettings
    ensures q == Panel.None <==> p == Panel.ViewSettings
  {
    match p
    case ViewSettings => Panel.None
    case _ => Panel.ViewSettings
  }

  /** Two clicks from the closed state close the panel again; from the instrument panel they also end closed. */
  lemma PanelToggleTwice()
    ensures NextPanel(NextPanel(Panel.None)) == Panel.None
    ensures NextPanel(NextPanel(Panel.ViewSettings)) == Panel.ViewSettings
    ensures NextPanel(NextPanel(Panel.Instrument)) == Panel.None
  {
  }

  /** A preset instrument: its name, its first tuning selected, and that tuning's open strings. */
  predicate IsPreset(i: Instruments.Instrument, name: string, strings: seq<nat>)
  {
    i.name == name && i.tuneIndex == 0 && i.HasTuning() && i.Strings() == strings
  }

  /**
   * The default instrument list: guitar, violin, cello, ukulele and banjo, in
   * that order, each with its first tuning selected.
   */
  predicate IsPresetList(list: seq<Instruments.Instrument>)
  {
    |list| == 5 &&
    IsPreset(list[0], "Guitar", Standard) &&
    IsPreset(list[1], "Violin", [7, 14, 21, 28]) &&
    IsPreset(list[2], "Cello", [0, 7, 14, 21]) &&
    IsPreset(list[3], "Ukulele", [7, 12, 16, 21]) &&
    IsPreset(list[4], "Banjo", [7, 14, 19, 23, 26])
  }

  /** Every preset has a selectable tuning, and the guitar starts in standard tuning. */
  lemma PresetsSelectable(list: seq<Instruments.Instrument>)
    requires IsPresetList(list)
    ensures forall k :: 0 <= k < |list| ==> list[k].HasTuning()
    ensures list[0].Strings() == Standard
  {
    assert list[0].HasTuning() && list[1].HasTuning() && list[2].HasTuning();
    assert list[3].HasTuning() && list[4].HasTuning();
  }

  /** Five instruments with the presets' contents, listed in the presets' order. */
  lemma PresetOrder(guitar: Instruments.Instrument, violin: Instruments.Instrument,
                    cello: Instruments.Instrument, ukulele: Instruments.Instrument,
                    banjo: Instruments.Instrument)
    requires IsPreset(guitar, "Guitar", Standard)
    requires IsPreset(violin, "Violin", [7, 14, 21, 28]) && SingleStandard(violin)
    requires IsPreset(cello, "Cello", [0, 7, 14, 21]) && SingleStandard(cello)
    requires IsPreset(ukulele, "Ukulele", [7, 12, 16, 21]) && SingleStandard(ukulele)
    requires IsPreset(banjo, "Banjo", [7, 14, 19, 23, 26]) && SingleStandard(banjo)
    ensures IsPresetList([guitar, violin, cello, ukulele, banjo])
    ensures forall k :: 1 <= k < 5 ==> SingleStandard([guitar, violin, cello, ukulele, banjo][k])
  {
  }

  /** The instruments vector of the default app, built from the five presets. */
  method PresetInstruments() returns (list: seq<Instruments.Instrument>)
    ensures IsPresetList(list)
    ensures forall k :: 1 <= k < 5 ==> SingleStandard(list[k])
    ensures list[0].tunings == GuitarTunings
  {
    var guitar := Guitar();
    var violin := Violin();
    OnlyStandard(violin);
    var cello := Cello();
    OnlyStandard(cello);
    var ukulele := Ukulele();
    OnlyStandard(ukulele);
    var banjo := Banjo();
    OnlyStandard(banjo);
    PresetOrder(guitar, violin, cello, ukulele, banjo);
    list := [guitar, violin, cello, ukulele, banjo];
  }

  class FretboardApp {
    var emptyInstrument: Instruments.Instrument
    var instruments: seq<Instruments.Instrument>
    var currentInstrument: nat
    var openPanel: Panel
    var settings: DrawSettings

    /** The current instrument exists, and every instrument's selected tuning exists. */
    predicate Valid()
      reads this
    {
      (instruments != [] ==> currentInstrument < |instruments|) &&
      forall k :: 0 <= k < |instruments| ==> instruments[k].HasTuning()
    }

    /** Default: the five preset instruments, the first selected, no panel open, default settings. */
    constructor ()
      ensures Valid()
      ensures IsPresetList(instruments) && currentInstrument == 0
      ensures forall k :: 1 <= k < 5 ==> SingleStandard(instruments[k])
      ensures instruments[0].tunings == GuitarTunings
      ensures Strings() == Standard
      ensures emptyInstrument == NoInstrument()
      ensures openPanel == Panel.None && settings == DefaultSettings
    {
      var presets := PresetInstruments();
      PresetsSelectable(presets);
      emptyInstrument := NoInstrument();
      instruments := presets;
      currentInstrument := 0;
      openPanel := Panel.None;
      settings := DefaultSettings;
    }

    /** instrument(): the fallback when the list is empty, otherwise the selected entry. */
    function ActiveInstrument(): (i: Instruments.Instrument)
      reads this
      requires Valid()
      ensures instruments == [] ==> i == emptyInstrument
      ensures instruments != [] ==> i == instruments[currentInstrument] && i in instruments && i.HasTuning()
    {
      if |instruments| <= 0 then emptyInstrument else instruments[currentInstrument]
    }

    /** strings(): the open strings of the active instrument's selected tuning. */
    function Strings(): (s: seq<nat>)
      reads this
      requires Valid() && ActiveInstrument().HasTuning()
      ensures instruments != [] ==> s == instruments[currentInstrument].Strings()
    {
      ActiveInstrument().Strings()
    }

    /** The settings toggle of the top bar. */
    method ToggleSettings()
      requires Valid()
      modifies this`openPanel
      ensures Valid()
      ensures openPanel == NextPanel(old(openPanel))
    {
      openPanel := NextPanel(openPanel);
    }

    /** The legend toggle of the top bar: flips show_legend and nothing else. */
    method ToggleLegend()
      requires Valid()
      modifies this`settings
      ensures Valid()
      ensures settings == old(settings).(showLegend := !old(settings).showLegend)
    {
      settings := settings.(showLegend := !settings.showLegend);
    }

    /** The instrument combo box: selects one of the listed instruments. */
    method SelectInstrument(k: nat)
      requires Valid() && k < |instruments|
      modifies this`currentInstrument
      ensures Valid()
      ensures currentInstrument == k
    {
      currentInstrument := k;
    }

    /** The tuning combo box: writes the chosen index back into the current instrument. */
    method SelectTuning(k: nat)
      requires Valid() && instruments != [] && k < |instruments[currentInstrument].tunings|
      modifies this`instruments
      ensures Valid()
      ensures instruments ==
        old(instruments)[currentInstrument := old(instruments)[currentInstrument].(tuneIndex := k)]
    {
      var chosen := instruments[currentInstrument].(tuneIndex := k);
      instruments := instruments[currentInstrument := chosen];
    }

    /**
     * draw_panel_fretboard without the painting: the frets with their markers,
     * the pitch of every bubble, the number of string lines and bubbles, and
     * whether the legend is drawn.
     */
    method DrawPanelFretboard() returns (frets: seq<FretDraw>, pitches: seq<seq<nat>>,
                                         lines: nat, bubbles: nat, legend: bool)
      requires Valid() && ActiveInstrument().HasTuning()
      ensures |frets| == settings.frets + 1
      ensures forall f :: 0 <= f < |frets| ==>
        frets[f] == FretDraw(f, MarkerGlyphs(f, settings.fretMarks), MarkerGlyphs(f, settings.fretMarks), FretWeight(f))
      ensures |pitches| == |Strings()|
      ensures forall row :: 0 <= row < |pitches| ==>
        |pitches[row]| == settings.frets + 1 &&
        forall f :: 0 <= f <= settings.frets ==>
          pitches[row][f] == DisplayOrder(settings.vertical, Strings())[row] + f
      ensures lines == |Strings()| * LinesPerString(settings.stringStyle)
      ensures bubbles == |Strings()| * (settings.frets + 1)
      ensures legend == settings.showLegend
    {
      frets := DrawFrets(settings.frets, settings.fretMarks);
      var strings := Strings();
      pitches, lines, bubbles := DrawStrings(strings, settings.frets, settings.vertical, settings.stringStyle);
      legend := settings.showLegend;
    }
  }

  /** The fallback instrument has no tuning, so its strings cannot be read. */
  lemma EmptyFallbackHasNoStrings(app: FretboardApp)
    requires app.Valid() && app.instruments == [] && app.emptyInstrument == NoInstrument()
    ensures !app.ActiveInstrument().HasTuning()
  {
  }
}

=== FILE: guitar.dfy ===
/**
 * The older scale tables of src/guitar.rs: the same step tables and running
 * sums as src/scales.rs, on a record that carries only the name, the mode and
 * the size.  The lemmas at the end show that the two copies agree.
 */
module Guitar {
  import opened StepTables
  import Scales

  datatype ScaleSize = Diatonic | Blues | Pentatonic

  datatype ScaleIntervals = ScaleIntervals(name: string, isMinor: bool, size: ScaleSize)
  {
    /** The semitone steps of the scale, chosen by size and mode. */
    function Intervals(): (r: seq<nat>)
      ensures AllPositive(r)
      ensures |r| == match size case Diatonic => 7 case Blues => 6 case Pentatonic => 5
    {
      match size
      case Diatonic =>
        if isMinor then [2, 1, 2, 2, 1, 2, 2] else [2, 2, 1, 2, 2, 2, 1]
      case Blues =>
        if isMinor then [3, 2, 1, 1, 3, 2] else [2, 1, 1, 3, 2, 3]
      case Pentatonic =>
        if isMinor then [3, 2, 2, 3, 2] else [2, 2, 3, 2, 3]
    }

    /** Running sums of the steps, starting from the root, as the source's loop pushes them. */
    method Notes() returns (notes: seq<nat>)
      ensures notes == PrefixSums(Intervals())
      ensures |notes| == |Intervals()| + 1 && notes[0] == 0
      ensures forall k :: 0 <= k < |Intervals()| ==> notes[k + 1] == notes[k] + Intervals()[k]
    {
      var steps := Intervals();
      var n := 0;
      notes := [0];
      for k := 0 to |steps|
        invariant notes == PrefixSums(steps[..k])
        invariant n == Sum(steps[..k])
      {
        assert steps[..k + 1][..k] == steps[..k];
        n := n + steps[k];
        notes := notes + [n];
      }
      assert steps[..|steps|] == steps;
      forall k | 0 <= k < |steps| ensures notes[k + 1] == notes[k] + steps[k] {
        PrefixSumsStep(steps, k);
      }
    }
  }

  /** This file's music_intervals! macro: the three fields as given. */
  function MusicIntervals(name: string, isMinor: bool, size: ScaleSize): (s: ScaleIntervals)
    ensures s.name == name && s.isMinor == isMinor && s.size == size
  {
    ScaleIntervals(name, isMinor, size)
  }

  /** The size of src/scales.rs that has the same name. */
  function ToScalesSize(size: ScaleSize): Scales.ScaleSize
  {
    match size
    case Diatonic => Scales.Diatonic
    case Blues => Scales.Blues
    case Pentatonic => Scales.Pentatonic
  }

  /** The scale of src/scales.rs built from the same name, mode and size. */
  function Counterpart(g: ScaleIntervals): Scales.ScaleIntervals
  {
    Scales.MusicIntervals(g.name, g.isMinor, ToScalesSize(g.size))
  }

  /** Both copies give the same steps and the same notes for every name, mode and size. */
  lemma AgreesWithScales(g: ScaleIntervals)
    ensures g.Intervals() == Counterpart(g).Intervals()
    ensures PrefixSums(g.Intervals()) == Counterpart(g).ScaleNotes()
  {
  }

  /**
   * The notes of this copy start on the root, rise strictly, end on the
   * octave, and the steps add up to 12.
   */
  lemma NotesShape(g: ScaleIntervals)
    ensures Sum(g.Intervals()) == 12
    ensures PrefixSums(g.Intervals())[0] == 0
    ensures PrefixSums(g.Intervals())[|g.Intervals()|] == 12
    ensures StrictlyIncreasing(PrefixSums(g.Intervals()))
  {
    AgreesWithScales(g);
    Scales.NotesShape(Counterpart(g));
  }
}

=== FILE: instruments.dfy ===
/**
 * Instruments and tunings of src/instruments.rs.  A tuning is a name and the
 * absolute pitch of each open string (semitones above a low C, not reduced to
 * one octave).  Alternate tunings are built by adding an offset to each
 * string of a base tuning.  An instrument is a name, its tunings and the
 * index of the selected one.
 */
module Instruments {
  import opened StepTables

  datatype Tuning = Tuning(name: string, strings: seq<nat>)

  /**
   * The strings Tuning::from produces: each string raised by the offset at
   * the same position, for as long as both lists last; the strings past the
   * end of the offsets are kept as they are.
   */
  function Shifted(strings: seq<nat>, offset: seq<nat>): (r: seq<nat>)
    ensures |r| == |strings|
  {
    seq(|strings|, i requires 0 <= i < |strings| =>
      if i < |offset| then strings[i] + offset[i] else strings[i])
  }

  /** Without offsets a tuning keeps its strings. */
  lemma ShiftedByNothing(strings: seq<nat>)
    ensures Shifted(strings, []) == strings
  {
  }

  /** Tuning::from: the loop adds offset[i] to string i and stops at the end of the offsets. */
  method TuningFrom(name: string, strings: seq<nat>, offset: seq<nat>) returns (t: Tuning)
    ensures t.name == name && t.strings == Shifted(strings, offset)
    ensures forall i {:trigger t.strings[i]} :: 0 <= i < |strings| && i < |offset| ==>
      t.strings[i] == strings[i] + offset[i]
    ensures forall i {:trigger t.strings[i]} :: |offset| <= i < |strings| ==> t.strings[i] == strings[i]
    ensures offset == [] ==> t.strings == strings
  {
    var tuned := strings;
    for i := 0 to |tuned|
      invariant |tuned| == |strings|
      invariant i <= |offset|
      invariant forall k :: 0 <= k < i ==> tuned[k] == strings[k] + offset[k]
      invariant forall k :: i <= k < |tuned| ==> tuned[k] == strings[k]
    {
      if i >= |offset| {
        break;
      }
      tuned := tuned[i := tuned[i] + offset[i]];
    }
    assert tuned == Shifted(strings, offset);
    t := Tuning(name, tuned);
  }

  datatype Instrument = Instrument(name: string, tuneIndex: nat, tunings: seq<Tuning>)
  {
    /** The selected tuning exists, so tuning() and strings() stay in bounds. */
    predicate HasTuning()
    {
      tuneIndex < |tunings|
    }

    /** The selected tuning. */
    function CurrentTuning(): (t: Tuning)
      requires HasTuning()
      ensures t in tunings
    {
      tunings[tuneIndex]
    }

    /** The open-string pitches of the selected tuning. */
    function Strings(): (s: seq<nat>)
      requires HasTuning()
      ensures exists t :: t in tunings && t.strings == s
    {
      CurrentTuning().strings
    }
  }

  /** Instrument::from: selects the first tuning and keeps the tunings in order. */
  function InstrumentFrom(name: string, tunings: seq<Tuning>): (i: Instrument)
    ensures i.name == name && i.tunings == tunings && i.tuneIndex == 0
    ensures i.HasTuning() <==> tunings != []
    ensures tunings != [] ==> i.CurrentTuning() == tunings[0] && i.Strings() == tunings[0].strings
  {
    Instrument(name, 0, tunings)
  }

  /** The Default instance: no tunings at all. */
  function DefaultInstrument(): (i: Instrument)
    ensures i.name == "None" && i.tuneIndex == 0
    ensures !i.HasTuning()
  {
    Instrument("None", 0, [])
  }

  /** Instrument::none(): built by Instrument::from with no tunings. */
  function NoInstrument(): (i: Instrument)
    ensures i.name == "none" && i.tunings == []
    ensures !i.HasTuning()
  {
    InstrumentFrom("none", [])
  }

  /** Guitar standard tuning, E A D G B E. */
  const Standard: seq<nat> := [4, 9, 14, 19, 23, 28]

  function Reversed(s: seq<nat>): (r: seq<nat>)
    ensures |r| == |s|
    ensures forall k :: 0 <= k < |s| ==> r[k] == s[|s| - 1 - k]
  {
    seq(|s|, k requires 0 <= k < |s| => s[|s| - 1 - k])
  }

  /** The names of the nine guitar tunings, in the order they are offered. */
  function TuningNames(ts: seq<Tuning>): (names: seq<string>)
    ensures |names| == |ts|
    ensures forall k :: 0 <= k < |ts| ==> names[k] == ts[k].name
  {
    seq(|ts|, k requires 0 <= k < |ts| => ts[k].name)
  }

  /** The nine guitar tunings as the offsets produce them, in the order they are offered. */
  const GuitarTunings: seq<Tuning> := [
    Tuning("Standard", [4, 9, 14, 19, 23, 28]),
    Tuning("Standard (lefty)", [28, 23, 19, 14, 9, 4]),
    Tuning("Standard D", [14, 19, 24, 29, 33, 38]),
    Tuning("DROP D", [14, 21, 26, 31, 35, 40]),
    Tuning("OPEN D", [14, 21, 26, 30, 33, 38]),
    Tuning("OPEN E", [4, 11, 16, 20, 23, 28]),
    Tuning("OPEN F", [12, 17, 24, 29, 33, 36]),
    Tuning("OPEN G", [14, 19, 26, 31, 35, 38]),
    Tuning("OPEN C", [12, 19, 24, 31, 36, 40])
  ]

  /**
   * Instrument::guitar(): the seven offset tunings are standard tuning plus
   * their offset vectors, and the lefty tuning is written out as standard
   * reversed; the result is the table above with the first one selected.
   */
  method Guitar() returns (g: Instrument)
    ensures g.name == "Guitar" && g.tuneIndex == 0
    ensures g.tunings == GuitarTunings
    ensures g.Strings() == Standard
  {
    var standard := Standard;
    var t0 := TuningFrom("Standard", standard, []);
    var t1 := TuningFrom("Standard (lefty)", [28, 23, 19, 14, 9, 4], []);
    var t2 := TuningFrom("Standard D", standard, [10, 10, 10, 10, 10, 10]);
    var t3 := TuningFrom("DROP D", standard, [10, 12, 12, 12, 12, 12]);
    var t4 := TuningFrom("OPEN D", standard, [10, 12, 12, 11, 10, 10]);
    var t5 := TuningFrom("OPEN E", standard, [0, 2, 2, 1, 0, 0]);
    var t6 := TuningFrom("OPEN F", standard, [8, 8, 10, 10, 10, 8]);
    var t7 := TuningFrom("OPEN G", standard, [10, 10, 12, 12, 12, 10]);
    var t8 := TuningFrom("OPEN C", standard, [8, 10, 10, 12, 13, 12]);
    ShiftedByNothing(standard);
    ShiftedByNothing([28, 23, 19, 14, 9, 4]);
    StandardOffsets();
    OpenOffsets();
    g := InstrumentFrom("Guitar", [t0, t1, t2, t3, t4, t5, t6, t7, t8]);
  }

  /** A six-string tuning raised by six offsets, string by string. */
  lemma ShiftedSix(strings: seq<nat>, offset: seq<nat>)
    requires |strings| == 6 && |offset| == 6
    ensures Shifted(strings, offset) == [strings[0] + offset[0], strings[1] + offset[1],
      strings[2] + offset[2], strings[3] + offset[3], strings[4] + offset[4], strings[5] + offset[5]]
  {
    var r := Shifted(strings, offset);
    assert r[0] == strings[0] + offset[0] && r[1] == strings[1] + offset[1];
    assert r[2] == strings[2] + offset[2] && r[3] == strings[3] + offset[3];
    assert r[4] == strings[4] + offset[4] && r[5] == strings[5] + offset[5];
  }

  /** Standard tuning raised by the Standard D and Drop D offsets. */
  lemma StandardOffsets()
    ensures Shifted(Standard, [10, 10, 10, 10, 10, 10]) == [14, 19, 24, 29, 33, 38]
    ensures Shifted(Standard, [10, 12, 12, 12, 12, 12]) == [14, 21, 26, 31, 35, 40]
  {
    ShiftedSix(Standard, [10, 10, 10, 10, 10, 10]);
    ShiftedSix(Standard, [10, 12, 12, 12, 12, 12]);
  }

  /** Standard tuning raised by the offsets of the five open tunings. */
  lemma OpenOffsets()
    ensures Shifted(Standard, [10, 12, 12, 11, 10, 10]) == [14, 21, 26, 30, 33, 38]
    ensures Shifted(Standard, [0, 2, 2, 1, 0, 0]) == [4, 11, 16, 20, 23, 28]
    ensures Shifted(Standard, [8, 8, 10, 10, 10, 8]) == [12, 17, 24, 29, 33, 36]
    ensures Shifted(Standard, [10, 10, 12, 12, 12, 10]) == [14, 19, 26, 31, 35, 38]
    ensures Shifted(Standard, [8, 10, 10, 12, 13, 12]) == [12, 19, 24, 31, 36, 40]
  {
    ShiftedSix(Standard, [10, 12, 12, 11, 10, 10]);
    ShiftedSix(Standard, [0, 2, 2, 1, 0, 0]);
    ShiftedSix(Standard, [8, 8, 10, 10, 10, 8]);
    ShiftedSix(Standard, [10, 10, 12, 12, 12, 10]);
    ShiftedSix(Standard, [8, 10, 10, 12, 13, 12]);
  }

  /**
   * What the guitar table means: nine six-string tunings; the lefty tuning
   * is standard reversed; Standard D is standard ten semitones up, each
   * string the pitch class two below; Drop D lowers the pitch class of the
   * lowest string by a whole tone and raises every other string an octave.
   */
  lemma GuitarTuningFacts()
    ensures |GuitarTunings| == 9
    ensures forall t :: t in GuitarTunings ==> |t.strings| == 6
    ensures GuitarTunings[1].strings == Reversed(GuitarTunings[0].strings)
    ensures forall k :: 0 <= k < 6 ==>
      GuitarTunings[2].strings[k] == Standard[k] + 10 &&
      (GuitarTunings[2].strings[k] + 2) % 12 == Standard[k] % 12
    ensures (GuitarTunings[3].strings[0] + 2) % 12 == Standard[0] % 12
    ensures forall k :: 1 <= k < 6 ==> GuitarTunings[3].strings[k] == Standard[k] + 12
    ensures GuitarTunings[5] == Tuning("OPEN E", [4, 11, 16, 20, 23, 28])
  {
    forall k | 0 <= k < 6
      ensures GuitarTunings[2].strings[k] + 2 == Standard[k] + 12
    {
    }
  }

  /** The instrument has one tuning, named "Standard", and it is selected. */
  predicate SingleStandard(i: Instrument)
  {
    i.HasTuning() && i.tunings == [Tuning("Standard", i.Strings())]
  }

  /** An instrument whose only tuning is "Standard" holds exactly that tuning, selected. */
  lemma OnlyStandard(i: Instrument)
    requires TuningNames(i.tunings) == ["Standard"] && i.tuneIndex == 0
    ensures SingleStandard(i)
  {
    assert |i.tunings| == 1 && i.tunings[0].name == TuningNames(i.tunings)[0];
  }

  /** Tuned in fifths, G D A E. */
  method Violin() returns (v: Instrument)
    ensures v.name == "Violin" && TuningNames(v.tunings) == ["Standard"] && v.tuneIndex == 0
    ensures v.Strings() == [7, 14, 21, 28]
    ensures forall k :: 0 <= k < 3 ==> v.Strings()[k + 1] == v.Strings()[k] + 7
  {
    var t := TuningFrom("Standard", [7, 14, 21, 28], []);
    ShiftedByNothing([7, 14, 21, 28]);
    v := InstrumentFrom("Violin", [t]);
  }

  /** Tuned in fifths, C G D A. */
  method Cello() returns (c: Instrument)
    ensures c.name == "Cello" && TuningNames(c.tunings) == ["Standard"] && c.tuneIndex == 0
    ensures c.Strings() == [0, 7, 14, 21]
    ensures forall k :: 0 <= k < 3 ==> c.Strings()[k + 1] == c.Strings()[k] + 7
  {
    var t := TuningFrom("Standard", [0, 7, 14, 21], []);
    ShiftedByNothing([0, 7, 14, 21]);
    c := InstrumentFrom("Cello", [t]);
  }

  /** G C E A, rising. */
  method Ukulele() returns (u: Instrument)
    ensures u.name == "Ukulele" && TuningNames(u.tunings) == ["Standard"] && u.tuneIndex == 0
    ensures u.Strings() == [7, 12, 16, 21] && StrictlyIncreasing(u.Strings())
  {
    var t := TuningFrom("Standard", [7, 12, 16, 21], []);
    ShiftedByNothing([7, 12, 16, 21]);
    u := InstrumentFrom("Ukulele", [t]);
  }

  /** Five strings, G D G B D, rising. */
  method Banjo() returns (b: Instrument)
    ensures b.name == "Banjo" && TuningNames(b.tunings) == ["Standard"] && b.tuneIndex == 0
    ensures b.Strings() == [7, 14, 19, 23, 26] && StrictlyIncreasing(b.Strings())
  {
    var t := TuningFrom("Standard", [7, 14, 19, 23, 26], []);
    ShiftedByNothing([7, 14, 19, 23, 26]);
    b := InstrumentFrom("Banjo", [t]);
  }
}

=== FILE: scales.dfy ===
/**
 * Scale tables of src/scales.rs: a scale is a step table chosen by its size
 * and mode; its notes are the running sums of the steps; a note (any signed
 * semitone count) is in the scale when its pitch class is one of those notes.
 * Note names come from two fixed twelve-entry tables.
 */
module Scales {
  import opened StepTables

  datatype ScaleSize = Diatonic | Blues | Pentatonic

  /** Rust's 16-bit signed integer, the type of the note passed to IsNoteInScale. */
  newtype i16 = x: int | -0x8000 <= x < 0x8000

  /** Letter names of the twelve pitch classes, starting at C, spelled with sharps. */
  const NoteLetters: seq<string> :=
    ["C", "C#", "D", "D#", "E", "F", "F#", "G", "G#", "A", "A#", "B"]

  /** Scale-degree names of the twelve semitone offsets from the root. */
  const NoteNumbers: seq<string> :=
    ["R", "b2", "2", "b3", "3", "4", "b5", "5", "b6", "6", "b7", "7"]

  /** Number of steps (and of distinct pitch classes) in a scale of each size. */
  function ToneCount(size: ScaleSize): nat
  {
    match size
    case Diatonic => 7
    case Blues => 6
    case Pentatonic => 5
  }

  datatype ScaleIntervals = ScaleIntervals(
    name: string,
    isMinor: bool,
    size: ScaleSize,
    noteLetters: seq<string>,
    noteNumbers: seq<string>,
    totalTones: nat)
  {
    /** The letter table has a name for every tone. */
    predicate LettersCover()
    {
      0 < totalTones <= |noteLetters|
    }

    /** The degree table has a name for every tone. */
    predicate NumbersCover()
    {
      0 < totalTones <= |noteNumbers|
    }

    /** Both name tables cover every tone of the octave. */
    predicate LabelsCover()
    {
      LettersCover() && NumbersCover()
    }

    /** The semitone steps of the scale: positive, one per tone, one octave in all. */
    function Intervals(): (r: seq<nat>)
      ensures |r| == ToneCount(size)
      ensures AllPositive(r)
    {
      match size
      case Diatonic =>
        if isMinor then [2, 1, 2, 2, 1, 2, 2] else [2, 2, 1, 2, 2, 2, 1]
      case Blues =>
        if isMinor then [3, 2, 1, 1, 3, 2] else [2, 1, 1, 3, 2, 3]
      case Pentatonic =>
        if isMinor then [3, 2, 2, 3, 2] else [2, 2, 3, 2, 3]
    }

    /** The notes of the scale as offsets from the root, closing on the octave. */
    function ScaleNotes(): seq<nat>
    {
      PrefixSums(Intervals())
    }

    /** Running sums of the steps, starting from the root, as the source's loop pushes them. */
    method Notes() returns (notes: seq<nat>)
      ensures notes == ScaleNotes()
      ensures |notes| == |Intervals()| + 1
      ensures notes[0] == 0 && notes[|notes| - 1] == 12
      ensures StrictlyIncreasing(notes)
    {
      var steps := Intervals();
      var n := 0;
      notes := [0];
      for k := 0 to |steps|
        invariant notes == PrefixSums(steps[..k])
        invariant n == Sum(steps[..k])
      {
        assert steps[..k + 1][..k] == steps[..k];
        n := n + steps[k];
        notes := notes + [n];
      }
      assert steps[..|steps|] == steps;
      NotesShape(this);
    }

    /** Whether a signed semitone count falls on a note of the scale, octaves ignored. */
    predicate InScale(n: int)
      requires totalTones > 0
    {
      n % totalTones in ScaleNotes()
    }

    /** The pitch classes below totalTones that the scale accepts. */
    function AcceptedTones(): set<nat>
      requires totalTones > 0
    {
      set r: nat | r < totalTones && InScale(r)
    }

    /**
     * Raises a negative note by whole octaves, reduces it modulo the octave and
     * looks it up in the notes: the result is membership of the true (never
     * negative) residue, and the raising loop stays inside 16 bits.
     */
    method IsNoteInScale(n: i16) returns (b: bool)
      requires 0 < totalTones < 0x8000
      ensures b <==> InScale(n as int)
    {
      var tones := totalTones as i16;
      var m := n;
      while m < 0
        invariant m as int % totalTones == n as int % totalTones
        decreases -(m as int)
      {
        ShiftByModulus(m as int, totalTones);
        m := m + tones;
      }
      // m is not negative here, so Rust's truncating % agrees with Dafny's.
      m := m % tones;
      var notes := Notes();
      b := m as int in notes;
    }

    /** Letter name of a semitone count, read from the table modulo the octave. */
    function GetNoteLetter(n: nat): (r: string)
      requires LettersCover()
      ensures r in noteLetters
    {
      noteLetters[n % totalTones]
    }

    /** Scale-degree name of a semitone offset, read from the table modulo the octave. */
    function GetNoteNumber(n: nat): (r: string)
      requires NumbersCover()
      ensures r in noteNumbers
    {
      noteNumbers[n % totalTones]
    }

    /** The number of tones in the octave, the modulus of every lookup. */
    function GetTotalTones(): (t: nat)
      ensures t == totalTones
      ensures LabelsCover() ==> 0 < t <= |noteLetters| && t <= |noteNumbers|
    {
      totalTones
    }
  }

  /** The constructor every scale of the program is built with (the music_intervals! macro). */
  function MusicIntervals(name: string, isMinor: bool, size: ScaleSize): (s: ScaleIntervals)
    ensures s.name == name && s.isMinor == isMinor && s.size == size
    ensures s.GetTotalTones() == 12
    ensures |s.noteLetters| == 12 && |s.noteNumbers| == 12
    ensures s.LabelsCover()
  {
    ScaleIntervals(name, isMinor, size, NoteLetters, NoteNumbers, 12)
  }

  lemma MultipleAtLeast(m: int, d: int)
    requires m > 0 && d >= 1
    ensures m * d >= m
  {
  }

  /** A remainder below the modulus determines the residue. */
  lemma UniqueRemainder(x: int, m: int, q: int, r: int)
    requires m > 0 && 0 <= r < m && x == m * q + r
    ensures x % m == r
  {
    var q0, r0 := x / m, x % m;
    assert x == m * q0 + r0;
    assert m * q - m * q0 == r0 - r;
    if q > q0 {
      assert m * (q - q0) == m * q - m * q0;
      MultipleAtLeast(m, q - q0);
    } else if q < q0 {
      assert m * (q0 - q) == m * q0 - m * q;
      MultipleAtLeast(m, q0 - q);
    }
  }

  /** Adding one modulus does not change the residue. */
  lemma ShiftByModulus(a: int, m: int)
    requires m > 0
    ensures (a + m) % m == a % m
  {
    var q, r := a / m, a % m;
    assert a == m * q + r;
    assert a + m == m * (q + 1) + r;
    UniqueRemainder(a + m, m, q + 1, r);
  }

  /** The notes start on the root and each one is the previous one plus the step between them. */
  lemma NotesSteps(s: ScaleIntervals)
    ensures |s.ScaleNotes()| == |s.Intervals()| + 1
    ensures s.ScaleNotes()[0] == 0
    ensures forall k :: 0 <= k < |s.Intervals()| ==>
      s.ScaleNotes()[k + 1] == s.ScaleNotes()[k] + s.Intervals()[k]
  {
    var steps := s.Intervals();
    forall k | 0 <= k < |steps|
      ensures s.ScaleNotes()[k + 1] == s.ScaleNotes()[k] + steps[k]
    {
      PrefixSumsStep(steps, k);
    }
  }

  /** All six note tables, written out. */
  lemma NoteTables(s: ScaleIntervals)
    ensures s.size == Diatonic && s.isMinor ==> s.ScaleNotes() == [0, 2, 3, 5, 7, 8, 10, 12]
    ensures s.size == Diatonic && !s.isMinor ==> s.ScaleNotes() == [0, 2, 4, 5, 7, 9, 11, 12]
    ensures s.size == Blues && s.isMinor ==> s.ScaleNotes() == [0, 3, 5, 6, 7, 10, 12]
    ensures s.size == Blues && !s.isMinor ==> s.ScaleNotes() == [0, 2, 3, 4, 7, 9, 12]
    ensures s.size == Pentatonic && s.isMinor ==> s.ScaleNotes() == [0, 3, 5, 7, 10, 12]
    ensures s.size == Pentatonic && !s.isMinor ==> s.ScaleNotes() == [0, 2, 4, 7, 9, 12]
  {
    var steps := s.Intervals();
    match s.size
    case Diatonic =>
      if s.isMinor { RunningSumsAre(steps, [0, 2, 3, 5, 7, 8, 10, 12]); }
      else { RunningSumsAre(steps, [0, 2, 4, 5, 7, 9, 11, 12]); }
    case Blues =>
      if s.isMinor { RunningSumsAre(steps, [0, 3, 5, 6, 7, 10, 12]); }
      else { RunningSumsAre(steps, [0, 2, 3, 4, 7, 9, 12]); }
    case Pentatonic =>
      if s.isMinor { RunningSumsAre(steps, [0, 3, 5, 7, 10, 12]); }
      else { RunningSumsAre(steps, [0, 2, 4, 7, 9, 12]); }
  }

  /** The steps of every scale add up to one octave. */
  lemma IntervalsSpanOctave(s: ScaleIntervals)
    ensures Sum(s.Intervals()) == 12
  {
    NoteTables(s);
  }

  /** The notes start on the root, rise strictly step by step and end on the octave. */
  lemma NotesShape(s: ScaleIntervals)
    ensures |s.ScaleNotes()| == |s.Intervals()| + 1
    ensures s.ScaleNotes()[0] == 0
    ensures s.ScaleNotes()[|s.Intervals()|] == 12
    ensures StrictlyIncreasing(s.ScaleNotes())
    ensures forall k :: 0 <= k < |s.Intervals()| ==>
      s.ScaleNotes()[k + 1] == s.ScaleNotes()[k] + s.Intervals()[k]
  {
    NotesSteps(s);
    IntervalsSpanOctave(s);
    PrefixSumsIncreasing(s.Intervals());
  }

  /** Membership repeats every octave. */
  lemma InScalePeriodic(s: ScaleIntervals, n: int)
    requires s.totalTones == 12
    ensures s.InScale(n) == s.InScale(n + 12)
  {
  }

  /** The root is in every scale, and a note one below the root behaves as 11, the major seventh. */
  lemma RootAndWrap(s: ScaleIntervals)
    requires s.totalTones == 12
    ensures s.InScale(0)
    ensures s.InScale(-1) == s.InScale(11)
  {
    NotesShape(s);
  }

  /** The accepted pitch classes are the notes before the closing octave. */
  lemma AcceptedAreNotesBelowOctave(s: ScaleIntervals)
    requires s.totalTones == 12
    ensures s.AcceptedTones() == Elements(s.ScaleNotes()[..|s.Intervals()|])
  {
    var steps := s.Intervals();
    var notes := s.ScaleNotes();
    var count := |steps|;
    IntervalsSpanOctave(s);
    assert notes[count] == 12;
    var below := notes[..count];
    forall r: nat | r in s.AcceptedTones() ensures r in Elements(below) {
      var k :| 0 <= k < |notes| && notes[k] == r;
      assert k != count;
      assert below[k] == r;
    }
    forall r: nat | r in Elements(below) ensures r in s.AcceptedTones() {
      var k :| 0 <= k < |below| && below[k] == r;
      PrefixSumsGrow(steps, k, count);
      assert r < 12 && r % 12 == r;
      assert notes[k] == r;
    }
  }

  /**
   * A scale accepts exactly as many pitch classes as it has steps: the closing
   * octave (12) in the note list never matches a reduced note.
   */
  lemma AcceptedCount(s: ScaleIntervals)
    requires s.totalTones == 12
    ensures |s.AcceptedTones()| == |s.Intervals()|
  {
    var below := s.ScaleNotes()[..|s.Intervals()|];
    AcceptedAreNotesBelowOctave(s);
    NotesShape(s);
    assert StrictlyIncreasing(below);
    DistinctCount(below);
  }

  /** Note names repeat every octave. */
  lemma LabelsPeriodic(s: ScaleIntervals, n: nat)
    requires s.LabelsCover()
    ensures s.GetNoteLetter(n) == s.GetNoteLetter(n + s.totalTones)
    ensures s.GetNoteNumber(n) == s.GetNoteNumber(n + s.totalTones)
  {
    ShiftByModulus(n, s.totalTones);
  }

  /** Sample names from the program's tables. */
  lemma LabelExamples(name: string, isMinor: bool, size: ScaleSize)
    ensures MusicIntervals(name, isMinor, size).GetNoteNumber(0) == "R"
    ensures MusicIntervals(name, isMinor, size).GetNoteNumber(3) == "b3"
    ensures MusicIntervals(name, isMinor, size).GetNoteLetter(1) == "C#"
    ensures MusicIntervals(name, isMinor, size).GetNoteLetter(25) == "C#"
  {
  }
}

=== FILE: step_tables.dfy ===
/**
 * Step tables: a scale is written as a list of semitone steps, and its notes
 * are the running sums of those steps, starting at the root (0).  Both
 * src/scales.rs and src/guitar.rs build their note lists this way; this
 * module holds the one definition of that construction and its properties.
 */
module StepTables {

  /** Sum of a list of steps, taken from the front as the source's loop does. */
  function Sum(s: seq<nat>): nat
  {
    if s == [] then 0 else Sum(s[..|s| - 1]) + s[|s| - 1]
  }

  /** Every step moves up by at least one semitone. */
  predicate AllPositive(s: seq<nat>)
  {
    forall k :: 0 <= k < |s| ==> s[k] > 0
  }

  predicate StrictlyIncreasing(s: seq<nat>)
  {
    forall i, j :: 0 <= i < j < |s| ==> s[i] < s[j]
  }

  /**
   * The running sums of the steps, starting with 0: one more entry than there
   * are steps, the last entry being the total.
   */
  function PrefixSums(s: seq<nat>): (r: seq<nat>)
    ensures |r| == |s| + 1
    ensures r[0] == 0
    ensures r[|s|] == Sum(s)
  {
    if s == [] then [0]
    else
      var front := PrefixSums(s[..|s| - 1]);
      front + [front[|s| - 1] + s[|s| - 1]]
  }

  /** Entry k of the running sums is the sum of the first k steps. */
  lemma {:induction false} PrefixSumsAt(s: seq<nat>, k: nat)
    requires k <= |s|
    ensures PrefixSums(s)[k] == Sum(s[..k])
  {
    if k < |s| {
      var front := s[..|s| - 1];
      assert front[..k] == s[..k];
      PrefixSumsAt(front, k);
    } else {
      assert s[..k] == s;
    }
  }

  /** Consecutive running sums differ by exactly the step between them. */
  lemma {:induction false} PrefixSumsStep(s: seq<nat>, k: nat)
    requires k < |s|
    ensures PrefixSums(s)[k + 1] == PrefixSums(s)[k] + s[k]
  {
    PrefixSumsAt(s, k);
    PrefixSumsAt(s, k + 1);
    assert s[..k + 1][..k] == s[..k];
  }

  /** A table that starts at 0 and moves by the given steps is their running sums. */
  lemma RunningSumsAre(steps: seq<nat>, table: seq<nat>)
    requires |table| == |steps| + 1 && table[0] == 0
    requires forall k :: 0 <= k < |steps| ==> table[k + 1] == table[k] + steps[k]
    ensures PrefixSums(steps) == table
  {
    var sums := PrefixSums(steps);
    forall k | 0 <= k < |table| ensures sums[k] == table[k] {
      RunningSumsAgree(steps, table, k);
    }
  }

  lemma {:induction false} RunningSumsAgree(steps: seq<nat>, table: seq<nat>, k: nat)
    requires |table| == |steps| + 1 && table[0] == 0
    requires forall k :: 0 <= k < |steps| ==> table[k + 1] == table[k] + steps[k]
    requires k < |table|
    ensures PrefixSums(steps)[k] == table[k]
  {
    if k > 0 {
      RunningSumsAgree(steps, table, k - 1);
      PrefixSumsStep(steps, k - 1);
    }
  }

  /** Positive steps give strictly increasing notes. */
  lemma {:induction false} PrefixSumsIncreasing(s: seq<nat>)
    requires AllPositive(s)
    ensures StrictlyIncreasing(PrefixSums(s))
  {
    var r := PrefixSums(s);
    forall i, j | 0 <= i < j < |r| ensures r[i] < r[j] {
      PrefixSumsGrow(s, i, j);
    }
  }

  lemma {:induction false} PrefixSumsGrow(s: seq<nat>, i: nat, j: nat)
    requires AllPositive(s)
    requires i < j <= |s|
    ensures PrefixSums(s)[i] < PrefixSums(s)[j]
    decreases j - i
  {
    PrefixSumsStep(s, j - 1);
    if i < j - 1 {
      PrefixSumsGrow(s, i, j - 1);
    }
  }

  /** The distinct values of a list. */
  function Elements(s: seq<nat>): set<nat>
  {
    set x | x in s
  }

  /** A strictly increasing list holds as many distinct values as it has entries. */
  lemma {:induction false} DistinctCount(s: seq<nat>)
    requires StrictlyIncreasing(s)
    ensures |Elements(s)| == |s|
  {
    if s == [] {
      assert Elements(s) == {};
    } else {
      var front := s[..|s| - 1];
      var last := s[|s| - 1];
      assert StrictlyIncreasing(front);
      DistinctCount(front);
      assert last !in Elements(front);
      assert s == front + [last];
      assert Elements(s) == Elements(front) + {last};
    }
  }
}
